=== FILE: README.md ===
# MainPlayerController — a Dafny model

This project models `MainPlayerController`, the kinematic 2D platformer character controller. Once per
frame, `Update` runs its stages in a fixed order:

- `GrabInput` snapshots the input.
- `CollisionChecks` casts four fans of short rays around the character's box. It refreshes the up,
  right, down and left contact flags and the ground bookkeeping: the landing signal, the time the
  character left the ground, and the coyote flag.
- `WalkingCalc` updates the horizontal speed. It accelerates, clamps, adds the apex bonus or
  decelerates, then zeroes the speed against a wall in contact.
- `ApexJumpCalc` works out how close the character is to the top of a jump and picks the gravity
  from that.
- `GravityCalc` applies gravity. It is stronger after an early release, and the speed is clamped at
  the fall clamp.
- `JumpCalc` handles coyote time, the jump buffer, early release and the ceiling.
- `CharacterMove` resolves the move. It commits the displacement when the target is free.
  Otherwise it walks toward the target in fixed fractions:
  - it stops at the candidate before the first blocked one;
  - when the first candidate is already blocked, it pushes the character by the move's length
    along the direction toward the obstacle;
  - when no candidate is blocked, it leaves the character where it was.

The model is organised as follows:

- One immutable `State` value carries the controller's fields from stage to stage.
- The tuning fields are a `Config` record. `DefaultConfig` holds the source's initialisers.
- The host's per-frame data is a `Frame`: the input snapshot, `Time.time`, `Time.deltaTime`, and
  the vertical component of `Vel`.
- The physics engine's queries are oracles in a `World` record:
  - the ray cast (`hits`);
  - the box overlap test (`overlaps`);
  - the position of the collider that test reports (`obstacleAt`);
  - the length ratio |move| / |dir| of the first-step push (`pushScale`). It is only known to be
    non-negative.
- The engine's `Mathf` and `Vector2` helpers are written out in `EngineMath` with the engine's own
  conventions:
  - `Clamp` compares with the lower bound first;
  - `Sign(0)` is 1;
  - `Lerp` and `Vector2.Lerp` clamp their parameter to [0, 1];
  - `InverseLerp` of an empty interval is 0.
- All quantities are mathematical reals. `float.MinValue` is the exact value
  -340282346638528859811704183484516925440.

Modules, one file each:

| module | file | contents |
|---|---|---|
| `EngineMath` | `engine_math.dfy` | vectors and the `Mathf` helpers |
| `Kinematics` | `kinematics.dfy` | `Config`, `FrameInput`, `World`, `State` and the initial state |
| `Collisions` | `collisions.dfy` | ray fans, sampling, detection and `CollisionChecks` |
| `Walking` | `walking.dfy` | `WalkingCalc` and the multi-frame walking lemmas |
| `Vertical` | `vertical.dfy` | `ApexJumpCalc`, `GravityCalc` and `JumpCalc` |
| `Move` | `move.dfy` | `CharacterMove` and its case analysis |
| `Player` | `player.dfy` | `Update` as `Step`, runs of frames, and properties of every reachable state |

### Code versus design

In several places the code does less than, or something other than, what its own field names
and comments suggest. One further item, the apex gravity, is stated because it runs against a
common platformer convention rather than against anything in the file. The model follows the
code and proves what the code does:

- **Coyote time never applies.** The field `_coyoteTimeThreshold` and the property `CanUseCoyote`
  (line 211) describe a grace window for jumping just after leaving the ground.
  - But `_coyoteUsable` starts false, and every assignment to it (lines 81 and 227) is `false`.
  - So `CanUseCoyote` is always false in a reachable state.
  - An airborne character never jumps, even within `_coyoteTimeThreshold` of leaving the ground.
  - Proved by `Player.CoyoteNeverUsable` and `Player.ReachableJumpRule`.
- **The horizontal speed can exceed `_moveClamp`.** The field name and the comment at line 155
  suggest a clamp on the horizontal speed.
  - But the bonus of line 158 ("apply bonus at the apex of a jump") is added after the clamp
    (lines 156-160).
  - So the speed is bounded by `moveClamp + apexBonus * dt`, not by `moveClamp`.
  - The bound is proved by `Player.HorizontalSpeedBounded`.
  - The overshoot is exhibited by `Walking.ApexBonusExceedsClamp`.
- **Gravity is strongest at the apex.** Line 217 sets
  `_fallSpeed = Lerp(_minFallSpeed, _maxFallSpeed, _apexPoint)`, and line 216 makes `_apexPoint`
  1 at zero vertical speed.
  - So the fall speed is `_maxFallSpeed` at the apex and `_minFallSpeed` once the vertical
    speed reaches `_jumpApexThreshold`.
  - This is the reverse of the usual platformer "apex hang time", where gravity is weakened
    near the top of a jump; nothing in the file says which of the two was intended.
  - Proved by `Vertical.ApexRamp`.
- **The left ray fan ends `buffer` above the box.** The comment on `_RayBuffer` (line 61) says the
  buffer keeps the side detectors off the ground, and the right fan (line 101) is inset at both
  ends.
  - Line 103 ends the left fan at `b.max.y + _RayBuffer`, where the right fan uses
    `b.max.y - _RayBuffer`.
  - Proved by `Collisions.FansOnBoxEdges`.
- **An overlapping target with no blocked candidate leaves the character in place.** When the
  target overlaps but none of candidates 1 .. n-1 does, the loop ends without assigning the
  position.
  - Proved by `Move.CharacterMoveOutcome`.
- **The first-step push goes toward the obstacle.** Line 279 takes `dir` from the obstacle to the
  character, and line 280 adds `dir.normalized * -move.magnitude`. That is a push of the move's
  length toward the obstacle, not away from it.
  - Proved by `Move.NudgeTowardObstacle`: the push has a non-positive component along `dir`.
- **A phantom jump at start-up.** `_lastJumpPressed` starts at 0. Before time `jumpBuffer`, a
  grounded character therefore jumps with no press.
  - Proved by `Player.StartupJumpWithoutPress`.

## Model

| member | source | states |
|---|---|---|
| EngineMath.Sign | MainPlayerController.cs:159 | Mathf.Sign is ±1: 1 for every x >= 0, so zero counts as positive, and -1 below 0. Sign(x) * x = Abs(x) |
| EngineMath.Clamp | MainPlayerController.cs:156 | For lo <= hi: the result lies in [lo, hi], is the value itself inside, lo below and hi above |
| EngineMath.Lerp | MainPlayerController.cs:217 | The result always lies between the two ends. For t in [0, 1] it is a + (b - a) t |
| EngineMath.InverseLerp | MainPlayerController.cs:216 | The result lies in [0, 1]. Lerp of it gives back any value between the ends. A value at or beyond the first end gives 0, one at or beyond the second end gives 1, for either orientation of the interval. An empty interval gives 0 |
| EngineMath.MoveTowards | MainPlayerController.cs:162 | Steps toward the target and never overshoots. It lands exactly on the target iff the target was within maxDelta, and otherwise moves by exactly maxDelta |
| EngineMath.LerpVec | MainPlayerController.cs:109 | Vector2.Lerp is the segment point a + (b - a) t for t in [0, 1]. It is a for t <= 0 and b for t >= 1 |
| Kinematics.DefaultConfig | MainPlayerController.cs:59-251 | The initialisers of lines 59, 61, 145-148, 175-177, 201-205 and 251. The default tuning has a non-positive fall clamp, a non-negative jump height and min fall speed <= max fall speed. Its detector count (line 59) and iteration count (line 251) are at least 2 |
| Kinematics.Init | MainPlayerController.cs:207-210 | A fresh controller is at rest and airborne. Its coyote flag is false, its early-release flag true, and its last-press time and apex point 0 |
| Collisions.RayRangeCalc | MainPlayerController.cs:97-104 | Each fan lies on its side of the box and casts outward. The horizontal fans are inset by the buffer at both ends. The side fans start buffer above the bottom; the right fan ends buffer below the top, the left fan buffer above it (lines 101 and 103) |
| Collisions.FansOnBoxEdges | MainPlayerController.cs:97-104 | For a buffer up to half the box, the up, down and right fans lie within the box. The left fan's end is inside only for a zero buffer. The left and right ends differ in height by twice the buffer |
| Collisions.EvaluateRayPositions | MainPlayerController.cs:106-111 | There are count sample points (none for count <= 0). For count >= 2 they run from the fan's start to its end |
| Collisions.RayPositionsEvenlySpaced | MainPlayerController.cs:106-111 | Sample i is start + (end - start) i/(count-1), so the engine's clamping never takes effect. Consecutive samples are one equal step apart |
| Collisions.AnyHit | MainPlayerController.cs:93 | Any() over the sample points is true iff some point's ray hits |
| Collisions.RunDetection | MainPlayerController.cs:92-94 | A side is in contact iff some sample point of its fan hits in the fan's direction |
| Collisions.CollisionChecks | MainPlayerController.cs:70-95 | Ground contact holds iff some down-fan ray hits, and the other flags equal their fans' detection. Landing is signalled iff the character was airborne and is now grounded. Leaving the ground stamps the time. Landing clears the coyote flag. Nothing else changes |
| Walking.ApexBonusBound | MainPlayerController.cs:159-160 | The apex bonus applied over dt has magnitude at most apexBonus * dt |
| Walking.DriveValue | MainPlayerController.cs:151-160 | Drive, the input branch: the speed is h + x * acceleration * dt when that is within the clamp, -moveClamp below it and moveClamp above it, plus the apex bonus Sign(x) * apexBonus * apexPoint * dt |
| Walking.DriveBounds | MainPlayerController.cs:151-160 | Drive, the input branch: the speed before the bonus is within the clamp. After the bonus it is within moveClamp + apexBonus * dt |
| Walking.CoastBounds | MainPlayerController.cs:162 | Coast, the branch without input: the speed moves toward 0 by at most deAcceleration * dt, never crosses 0 and never grows. It is exactly 0 iff it was that close |
| Walking.BlockWalls | MainPlayerController.cs:164-167 | The speed never points into a wall in contact. It is changed (to 0) iff it did |
| Walking.WalkingCalc | MainPlayerController.cs:150-168 | The result is the accelerated speed (Accelerate: Drive with input, Coast without), or 0 exactly when that speed points into a wall in contact. So it never points into a contact wall. With input it is within moveClamp + apexBonus * dt. Without input it neither grows nor changes sign |
| Walking.IdleFrameIsWalkingCalc | MainPlayerController.cs:150-168 | One WalkingCalc frame without input and without wall contact is one step of the idle iterate that IdleDecay describes |
| Walking.IdleDecay | MainPlayerController.cs:162 | After k frames without input and without wall contact, at a fixed dt, the speed's magnitude has dropped by exactly k * deAcceleration * dt, or the speed is 0 once that would overshoot. Its sign never changes |
| Walking.IdleStopsWithinClampTime | MainPlayerController.cs:162 | A speed within the clamp reaches exactly 0 once the accumulated deceleration reaches moveClamp |
| Walking.HeldRightFrameIsWalkingCalc | MainPlayerController.cs:150-168 | One WalkingCalc frame with full right input, apex point 0 and no wall contact is one step of the held-right iterate that HeldRightSaturates describes |
| Walking.HeldRightSaturates | MainPlayerController.cs:151-157 | Holding right at apex point 0, without wall contact and at a fixed dt, from a speed in [0, moveClamp], gains acceleration * dt per frame until the clamp, then stays at moveClamp |
| Walking.DefaultRunReachesClamp | MainPlayerController.cs:145-156 | With the default tuning, 60 frames of right input at dt = 1/60 from rest reach exactly moveClamp = 13 |
| Walking.ApexBonusExceedsClamp | MainPlayerController.cs:156-160 | Because the bonus follows the clamp, one frame at the clamp and the apex ends at 13.2 > moveClamp |
| Vertical.ApexJumpCalc | MainPlayerController.cs:214-221 | The apex point lies in [0, 1]. Grounded, it is 0 and the fall speed is kept. Airborne, the fall speed lies between min and max fall speed. Nothing else changes |
| Vertical.ApexRamp | MainPlayerController.cs:214-217 | Airborne, the apex point ramps linearly from 1 at zero vertical speed to 0 at the threshold. The fall speed is maxFallSpeed at the apex and minFallSpeed beyond the threshold |
| Vertical.Gravity | MainPlayerController.cs:187 | The applied gravity is fallSpeed * jumpEndEarlyGravityModifier when the jump was released early while rising, and the fall speed otherwise. With a non-negative fall speed and a multiplier of at least 1, it is never less than the fall speed |
| Vertical.GravityCalc | MainPlayerController.cs:180-194 | Grounded, a downward speed becomes exactly 0 and an upward one is kept. Airborne, the speed is v - Gravity * dt when that is at least fallClamp, and exactly fallClamp otherwise. Nothing else changes |
| Vertical.EarlyReleaseFallsFaster | MainPlayerController.cs:187-189 | With a multiplier of at least 1, a rising airborne character loses at least as much speed after an early release as without one |
| Vertical.JumpCalc | MainPlayerController.cs:223-243 | A jump fires iff (press and coyote) or a buffered jump. Firing sets the jump speed, clears the coyote flag and stamps float.MinValue. Early release is flagged iff airborne, released and rising, or kept when no jump fired. Under a ceiling the speed ends non-positive: an upward speed becomes exactly 0, and any other value is the jump speed or the incoming speed |
| Vertical.JumpTriggerCases | MainPlayerController.cs:211-224 | CanUseCoyote, HasBufferedJump and JumpTriggered: coyote time needs the character airborne and the buffer needs it grounded, so the two never overlap. Grounded, a jump fires iff jump was pressed less than jumpBuffer ago. Airborne, it fires iff jump is pressed now with the coyote flag set, within coyoteTimeThreshold of leaving the ground |
| Move.CandidateOnSegment | MainPlayerController.cs:268-269 | Candidate i of n is the point i/n of the way from the start to the target |
| Move.NudgeTowardObstacle | MainPlayerController.cs:279-280 | The first-step push has a non-positive component along the obstacle-to-character direction, so it never moves the character away from the obstacle |
| Move.Sweep | MainPlayerController.cs:267-287 | The resolver loop changes the vertical speed only by stopping a fall, and only on iteration 1 |
| Move.CharacterMove | MainPlayerController.cs:254-288 | A free target is reached exactly. The vertical speed changes only by stopping a fall |
| Move.SweepStopsAtFirstBlocked | MainPlayerController.cs:267-287 | The loop ends at the candidate before the first blocked one. If that is the first candidate, it ends at the start pushed toward the obstacle, with any fall stopped |
| Move.SweepFindsNothing | MainPlayerController.cs:267-287 | A loop that finds no blocked candidate leaves the position where it was |
| Move.SweepCasesExhaustive | MainPlayerController.cs:267-287 | Either some candidate is the first blocked one, or none is blocked |
| Move.CharacterMoveOutcome | MainPlayerController.cs:254-288 | A free target is reached exactly. Otherwise the character ends at a free candidate before the first blocked step, at the start pushed toward the obstacle (with a fall stopped) when step 1 is blocked, or in place when none is |
| Player.GrabInput | MainPlayerController.cs:41-50 | A jump press stamps the current time. Nothing else changes |
| Player.Sense | MainPlayerController.cs:28-29 | Input then collisions: the speeds, position and apex point are unchanged, a press is stamped, and landing is signalled iff the character went from airborne to grounded |
| Player.Steer | MainPlayerController.cs:31-34 | The horizontal speed is WalkingCalc of the fresh flags and the previous apex point. No speed points into a contact wall. Under a ceiling the vertical speed is non-positive. Without the coyote flag, a jump fires iff grounded with a recent press |
| Player.VerticalStages | MainPlayerController.cs:32-34 | The apex point ends in [0, 1] and is 0 on the ground. The vertical speed stays at or above fallClamp. Without the coyote flag, a jump fires iff grounded with a recent press |
| Player.Velocities | MainPlayerController.cs:28-34 | Every stage before the move: the position is unchanged, with the flag, apex, wall, fall-clamp and jump rules as above |
| Player.ApplyMove | MainPlayerController.cs:254-257 | The move stage records the pre-move velocity as the raw movement. It takes the position from CharacterMove, reaching a free target exactly, and changes the vertical speed only by stopping a fall |
| Player.Step | MainPlayerController.cs:22-37 | One Update. The coyote flag never turns on. Landing is signalled iff airborne to grounded. The apex and wall rules hold, and v >= fallClamp. The raw movement's x is the new horizontal speed, and its y is the new vertical speed unless the move stopped a fall. The new position is CharacterMove's from the old position with the raw movement, and a free target is reached exactly |
| Player.Run | MainPlayerController.cs:22-37 | After at least one frame, the apex point is in [0, 1] and 0 on the ground, and no horizontal speed points into a wall in contact |
| Player.CoyoteNeverUsable | MainPlayerController.cs:207-228 | Starting with the coyote flag false, it stays false for any run of frames |
| Player.ReachableJumpRule | MainPlayerController.cs:211-229 | In every reachable state, a jump fires iff grounded and jump was pressed less than jumpBuffer ago. An airborne character never jumps |
| Player.RunKeepsInvariant | MainPlayerController.cs:22-37 | Every run of frames preserves the frame invariant: the apex point is in [0, 1] and 0 on the ground, no horizontal speed points into a contact wall, and v >= fallClamp |
| Player.InvariantHolds | MainPlayerController.cs:207-210 | Every state reachable from activation satisfies the frame invariant |
| Player.WalkKeepsHorizontalBound | MainPlayerController.cs:150-168 | A frame with dt <= maxDt keeps the speed within moveClamp + apexBonus * maxDt |
| Player.DriveWithinBound | MainPlayerController.cs:151-160 | A frame with input lands within moveClamp + apexBonus * maxDt |
| Player.CoastWithinBound | MainPlayerController.cs:162 | A frame without input keeps a speed within the bound inside it |
| Player.HorizontalSpeedBounded | MainPlayerController.cs:150-168 | Over any run with every dt in [0, maxDt], the horizontal speed stays within moveClamp + apexBonus * maxDt |
| Player.StartupJumpWithoutPress | MainPlayerController.cs:210-212 | A fresh controller that is grounded before time jumpBuffer jumps without any press |

## Left out

- `BasicMovement2D.cs`, the separate Rigidbody2D-based mover, is not part of this model.
- `OnDrawGizmos` (lines 115-139) only draws editor visualisations and has no effect on the state.
- Input polling (`GetButtonDown`, `GetButtonUp`, `GetAxisRaw`), `Time.time` and `Time.deltaTime` are
  parameters of each frame.
- `Vel` (line 24) divides the last displacement by `Time.deltaTime`. Only its vertical component is
  read, and it enters as the frame's `velY`, because the division by a possibly zero frame time is
  the host's concern.
- `Physics2D.Raycast` and `Physics2D.OverlapBox` are oracles. The ray length and the ground layer
  mask are folded into them.
- The length ratio in the first-step push `dir.normalized * -move.magnitude` (line 280) needs a
  square root. It is the oracle `pushScale`, known only to be non-negative. The direction of the
  push is modelled.
- Single-precision rounding, NaN and infinities are not modelled. All arithmetic is on reals.
- Collisions.EvaluateRayPositions: a detector count of exactly 1 computes 0 / 0 (NaN) in the source.
  That count is excluded by `WellDefined`.
- The z component of `Vector3` positions plays no part in a 2D controller and is dropped.
- The controller is single-threaded and frame-synchronous, so there is no concurrency to model.

=== FILE: collisions.dfy ===
/** The collision probe: four fans of short rays along the sides of the
    character's box, and the ground bookkeeping (landing signal, left-ground
    time, coyote flag) driven by the downward fan. */
module Collisions {
  import opened EngineMath
  import opened Kinematics

  /** A fan of probes: sample points run from `start` to `end`, each ray
      is cast in direction `dir`. */
  datatype RayRange = RayRange(start: Vec2, end: Vec2, dir: Vec2)

  datatype Fans = Fans(up: RayRange, right: RayRange, down: RayRange, left: RayRange)

  /** Corners of the box of the given size centred on `pos` (the bounds
      RayRangeCalc builds from the current position). */
  function BoxMin(pos: Vec2, size: Vec2): Vec2
  {
    Vec2(pos.x - size.x / 2.0, pos.y - size.y / 2.0)
  }

  function BoxMax(pos: Vec2, size: Vec2): Vec2
  {
    Vec2(pos.x + size.x / 2.0, pos.y + size.y / 2.0)
  }

  predicate InBox(p: Vec2, pos: Vec2, size: Vec2)
  {
    BoxMin(pos, size).x <= p.x <= BoxMax(pos, size).x &&
    BoxMin(pos, size).y <= p.y <= BoxMax(pos, size).y
  }

  /** RayRangeCalc: each fan lies on the line of its side of the box and
      casts outward; the horizontal fans are inset by `buffer` at both
      ends, the vertical ones start `buffer` above the bottom. */
  function RayRangeCalc(pos: Vec2, size: Vec2, buffer: real): (r: Fans)
    ensures r.down.dir == Down && r.up.dir == Up
    ensures r.right.dir == Right && r.left.dir == Left
    ensures r.down.start.y == r.down.end.y == BoxMin(pos, size).y
    ensures r.up.start.y == r.up.end.y == BoxMax(pos, size).y
    ensures r.right.start.x == r.right.end.x == BoxMax(pos, size).x
    ensures r.left.start.x == r.left.end.x == BoxMin(pos, size).x
    ensures r.down.start.x == r.up.start.x == BoxMin(pos, size).x + buffer
    ensures r.down.end.x == r.up.end.x == BoxMax(pos, size).x - buffer
    ensures r.right.start.y == r.left.start.y == BoxMin(pos, size).y + buffer
    ensures r.right.end.y == BoxMax(pos, size).y - buffer
    ensures r.left.end.y == BoxMax(pos, size).y + buffer
  {
    var mn := BoxMin(pos, size);
    var mx := BoxMax(pos, size);
    Fans(
      RayRange(Vec2(mn.x + buffer, mx.y), Vec2(mx.x - buffer, mx.y), Up),
      RayRange(Vec2(mx.x, mn.y + buffer), Vec2(mx.x, mx.y - buffer), Right),
      RayRange(Vec2(mn.x + buffer, mn.y), Vec2(mx.x - buffer, mn.y), Down),
      // the left fan ends buffer ABOVE the top, unlike the right fan
      RayRange(Vec2(mn.x, mn.y + buffer), Vec2(mn.x, mx.y + buffer), Left))
  }

  /** With a buffer no larger than half the box, the up, down and right
      fans lie entirely on the box's edges, inset by `buffer` at both ends;
      the left fan starts on its edge but, as written, its end lies
      `buffer` above the top of the box, so the left and right fans are not
      mirror images: their ends differ in height by twice the buffer. */
  lemma FansOnBoxEdges(pos: Vec2, size: Vec2, buffer: real)
    requires 0.0 <= buffer && 2.0 * buffer <= size.x && 2.0 * buffer <= size.y
    ensures var r := RayRangeCalc(pos, size, buffer);
      && InBox(r.up.start, pos, size) && InBox(r.up.end, pos, size)
      && InBox(r.down.start, pos, size) && InBox(r.down.end, pos, size)
      && InBox(r.right.start, pos, size) && InBox(r.right.end, pos, size)
      && InBox(r.left.start, pos, size)
      && (InBox(r.left.end, pos, size) <==> buffer == 0.0)
      && r.left.end.y - r.right.end.y == 2.0 * buffer
      && r.right.end.y - r.right.start.y == size.y - 2.0 * buffer
      && r.left.end.y - r.left.start.y == size.y
  {
  }

  /** The `count` sample points of a fan, evenly spaced from its start to
      its end. A non-positive count yields none, as the source loop does
      not run; a count of one is excluded (its parameter is 0 / 0). */
  function EvaluateRayPositions(range: RayRange, count: int): (ps: seq<Vec2>)
    requires count != 1
    ensures |ps| == if count <= 0 then 0 else count
    ensures count >= 2 ==> ps[0] == range.start && ps[count - 1] == range.end
  {
    if count <= 0 then []
    else
      seq(count, i requires 0 <= i < count =>
        LerpVec(range.start, range.end, i as real / (count - 1) as real))
  }

  /** The i-th sample point is start + (end - start) * i / (count - 1): the
      clamping inside the engine's Lerp never takes effect, and
      consecutive points are one equal step apart. */
  lemma RayPositionsEvenlySpaced(range: RayRange, count: int, i: int)
    requires count >= 2
    requires 0 <= i < count
    ensures var ps := EvaluateRayPositions(range, count);
      var step := Scale(Sub(range.end, range.start), 1.0 / (count - 1) as real);
      && ps[i] == Add(range.start, Scale(Sub(range.end, range.start), i as real / (count - 1) as real))
      && (i + 1 < count ==> Sub(ps[i + 1], ps[i]) == step)
  {
    var ps := EvaluateRayPositions(range, count);
    var d := Sub(range.end, range.start);
    var n := (count - 1) as real;
    FractionInUnit(i, count - 1);
    if i + 1 < count {
      FractionInUnit(i + 1, count - 1);
      assert (i + 1) as real / n == i as real / n + 1.0 / n;
      StepBetween(range.start, d, i as real / n, 1.0 / n);
    }
  }

  /** Moving the parameter of start + d * t by dt moves the point by d * dt. */
  lemma StepBetween(start: Vec2, d: Vec2, t: real, dt: real)
    ensures Sub(Add(start, Scale(d, t + dt)), Add(start, Scale(d, t))) == Scale(d, dt)
  {
    assert d.x * (t + dt) - d.x * t == d.x * dt;
    assert d.y * (t + dt) - d.y * t == d.y * dt;
  }

  /** Whether any of the points casts a ray in `dir` that hits. */
  function AnyHit(ps: seq<Vec2>, dir: Vec2, hits: (Vec2, Vec2) -> bool): (r: bool)
    ensures r <==> exists i :: 0 <= i < |ps| && hits(ps[i], dir)
  {
    if |ps| == 0 then false
    else if hits(ps[0], dir) then true
    else
      var rest := AnyHit(ps[1..], dir, hits);
      assert forall i :: 1 <= i < |ps| ==> ps[i] == ps[1..][i - 1];
      rest
  }

  /** RunDetection: a side is in contact iff some sample point of its fan
      casts a ray that hits the ground layer. */
  function RunDetection(range: RayRange, count: int, hits: (Vec2, Vec2) -> bool): (r: bool)
    requires count != 1
    ensures r <==> exists i :: 0 <= i < |EvaluateRayPositions(range, count)| &&
                              hits(EvaluateRayPositions(range, count)[i], range.dir)
  {
    AnyHit(EvaluateRayPositions(range, count), range.dir, hits)
  }

  /** The fans for the character's current position. */
  function FansAt(s: State, cfg: Config): Fans
  {
    RayRangeCalc(s.pos, cfg.size, cfg.rayBuffer)
  }

  /** CollisionChecks: recompute all four contact flags from the fans at
      the current position, raise the landing signal on a false-to-true
      ground transition, stamp the left-ground time on a true-to-false
      one, and clear the coyote flag on landing. Nothing else changes. */
  function CollisionChecks(s: State, cfg: Config, world: World, now: real): (r: State)
    requires WellDefined(cfg)
    ensures r.colDown == RunDetection(FansAt(s, cfg).down, cfg.detectorCount, world.hits)
    ensures r.colUp == RunDetection(FansAt(s, cfg).up, cfg.detectorCount, world.hits)
    ensures r.colLeft == RunDetection(FansAt(s, cfg).left, cfg.detectorCount, world.hits)
    ensures r.colRight == RunDetection(FansAt(s, cfg).right, cfg.detectorCount, world.hits)
    ensures r.isLanding <==> !s.colDown && r.colDown
    ensures s.colDown && !r.colDown ==> r.timeLeftGrounded == now
    ensures !(s.colDown && !r.colDown) ==> r.timeLeftGrounded == s.timeLeftGrounded
    ensures r.coyoteUsable ==> s.coyoteUsable
    ensures r.isLanding ==> !r.coyoteUsable
    ensures !r.isLanding ==> r.coyoteUsable == s.coyoteUsable
    ensures r.pos == s.pos && r.h == s.h && r.v == s.v
    ensures r.lastJumpPressed == s.lastJumpPressed && r.endedJumpEarly == s.endedJumpEarly
    ensures r.apexPoint == s.apexPoint && r.fallSpeed == s.fallSpeed
    ensures r.isJumping == s.isJumping && r.rawMovement == s.rawMovement
  {
    var fans := FansAt(s, cfg);
    var grounded := RunDetection(fans.down, cfg.detectorCount, world.hits);
    var leftGround := s.colDown && !grounded;
    var landed := !s.colDown && grounded;
    s.(isLanding := landed,
       timeLeftGrounded := if leftGround then now else s.timeLeftGrounded,
       coyoteUsable := if landed then false else s.coyoteUsable,
       colDown := grounded,
       colUp := RunDetection(fans.up, cfg.detectorCount, world.hits),
       colLeft := RunDetection(fans.left, cfg.detectorCount, world.hits),
       colRight := RunDetection(fans.right, cfg.detectorCount, world.hits))
  }
}

=== FILE: engine_math.dfy ===
/** The engine-side vector and scalar helpers the controller calls
    (Vector2/Vector3 arithmetic and the Mathf functions), over ideal reals.
    Each one follows the engine's documented definition, including where it
    clamps its interpolation parameter and how it treats zero. */
module EngineMath {

  /** A point or a displacement in the plane; the z component of the
      engine's Vector3 plays no part in a 2D controller and is dropped. */
  datatype Vec2 = Vec2(x: real, y: real)

  function Add(a: Vec2, b: Vec2): Vec2 { Vec2(a.x + b.x, a.y + b.y) }

  function Sub(a: Vec2, b: Vec2): Vec2 { Vec2(a.x - b.x, a.y - b.y) }

  function Scale(a: Vec2, k: real): Vec2 { Vec2(a.x * k, a.y * k) }

  /** The dot product. */
  function Dot(a: Vec2, b: Vec2): real { a.x * b.x + a.y * b.y }

  /** A non-negative quantity, such as a length or a ratio of lengths. */
  type NonNegReal = r: real | 0.0 <= r

  /** The four probe directions. */
  const Up: Vec2 := Vec2(0.0, 1.0)
  const Down: Vec2 := Vec2(0.0, -1.0)
  const Left: Vec2 := Vec2(-1.0, 0.0)
  const Right: Vec2 := Vec2(1.0, 0.0)

  function Abs(x: real): (r: real)
    ensures r >= 0.0
    ensures r == x || r == -x
  {
    if x < 0.0 then -x else x
  }

  /** Mathf.Sign: zero counts as positive. */
  function Sign(x: real): (r: real)
    ensures r == 1.0 || r == -1.0
    ensures x >= 0.0 ==> r == 1.0
    ensures x < 0.0 ==> r == -1.0
    ensures r * x == Abs(x)
  {
    if x >= 0.0 then 1.0 else -1.0
  }

  /** Mathf.Clamp: the value is compared with the lower bound first. */
  function Clamp(value: real, lo: real, hi: real): (r: real)
    ensures lo <= hi ==> lo <= r <= hi
    ensures lo <= value <= hi ==> r == value
    ensures lo <= hi && value < lo ==> r == lo
    ensures lo <= hi && value > hi ==> r == hi
  {
    if value < lo then lo else if value > hi then hi else value
  }

  function Clamp01(t: real): (r: real)
    ensures 0.0 <= r <= 1.0
    ensures 0.0 <= t <= 1.0 ==> r == t
    ensures t <= 0.0 ==> r == 0.0
    ensures t >= 1.0 ==> r == 1.0
  {
    Clamp(t, 0.0, 1.0)
  }

  /** Mathf.Lerp: the parameter is clamped to [0, 1], so the result always
      lies between the two end values. */
  function Lerp(a: real, b: real, t: real): (r: real)
    ensures a <= b ==> a <= r && r <= b
    ensures b <= a ==> b <= r && r <= a
    ensures 0.0 <= t <= 1.0 ==> r == a + (b - a) * t
  {
    var c := Clamp01(t);
    var r := a + (b - a) * c;
    LerpBetween(a, b, c, r);
    r
  }

  /** Mathf.InverseLerp: where `value` sits between `a` and `b`, clamped to
      [0, 1], so 0 at or beyond the `a` end and 1 at or beyond the `b` end;
      a degenerate interval yields 0. */
  function InverseLerp(a: real, b: real, value: real): (r: real)
    ensures 0.0 <= r <= 1.0
    ensures a != b && a <= value <= b ==> Lerp(a, b, r) == value
    ensures a != b && b <= value <= a ==> Lerp(a, b, r) == value
    ensures a < b && value <= a ==> r == 0.0
    ensures a < b && value >= b ==> r == 1.0
    ensures a > b && value >= a ==> r == 0.0
    ensures a > b && value <= b ==> r == 1.0
    ensures a == b ==> r == 0.0
  {
    if a != b then
      DivBounds(value - a, b - a);
      Clamp01((value - a) / (b - a))
    else 0.0
  }

  /** Mathf.MoveTowards: step from `current` toward `target` by exactly
      `maxDelta`, or land on the target when it is that close. */
  function MoveTowards(current: real, target: real, maxDelta: real): (r: real)
    ensures 0.0 <= maxDelta ==> Abs(r - current) <= maxDelta
    ensures 0.0 <= maxDelta ==> Abs(r - target) <= Abs(current - target)
    ensures 0.0 <= maxDelta ==> (current <= target ==> current <= r <= target)
    ensures 0.0 <= maxDelta ==> (target <= current ==> target <= r <= current)
    ensures 0.0 <= maxDelta ==> (r == target <==> Abs(target - current) <= maxDelta)
    ensures 0.0 <= maxDelta && Abs(target - current) > maxDelta ==> Abs(r - current) == maxDelta
  {
    if Abs(target - current) <= maxDelta then target
    else current + Sign(target - current) * maxDelta
  }

  /** Vector2.Lerp: componentwise Mathf.Lerp with the parameter clamped. */
  function LerpVec(a: Vec2, b: Vec2, t: real): (r: Vec2)
    ensures 0.0 <= t <= 1.0 ==> r == Add(a, Scale(Sub(b, a), t))
    ensures t <= 0.0 ==> r == a
    ensures t >= 1.0 ==> r == b
  {
    Vec2(Lerp(a.x, b.x, t), Lerp(a.y, b.y, t))
  }

  /** Scaling by a factor in [0, 1] keeps a quantity between 0 and itself. */
  lemma ScaleBetween(d: real, c: real)
    requires 0.0 <= c <= 1.0
    ensures d >= 0.0 ==> 0.0 <= d * c <= d
    ensures d <= 0.0 ==> d <= d * c <= 0.0
  {
    assert d - d * c == d * (1.0 - c);
  }

  /** Linear interpolation with a parameter in [0, 1] stays between the ends.
      The interpolated value is passed in as `r` so that the caller's own
      term is matched as it stands, which keeps the arithmetic cheap. */
  lemma LerpBetween(a: real, b: real, c: real, r: real)
    requires 0.0 <= c <= 1.0
    requires r == a + (b - a) * c
    ensures a <= b ==> a <= r && r <= b
    ensures b <= a ==> b <= r && r <= a
  {
    ScaleBetween(b - a, c);
    assert b - r == (b - a) * (1.0 - c);
    ScaleBetween(b - a, 1.0 - c);
  }

  /** A product of non-negative factors is non-negative; the product is
      passed in as `p` so that the caller's own term is matched as it
      stands, which keeps the arithmetic cheap. */
  lemma MulNonneg(a: real, b: real, p: real)
    requires 0.0 <= a && 0.0 <= b && p == a * b
    ensures 0.0 <= p
  {
  }

  /** A fraction i / d with 0 <= i <= d lies in [0, 1]. */
  lemma FractionInUnit(i: int, d: int)
    requires 0 <= i <= d
    requires 0 < d
    ensures 0.0 <= i as real / d as real <= 1.0
  {
    var q := i as real / d as real;
    assert q * d as real == i as real;
  }

  /** A ratio n / d with 0 <= n <= d lies in [0, 1]. */
  lemma RatioInUnit(n: real, d: real)
    requires 0.0 <= n <= d && 0.0 < d
    ensures 0.0 <= n / d <= 1.0
  {
    var q := n / d;
    assert q * d == n;
  }

  /** Where a quotient n / d falls relative to 0 and 1, by the signs of n,
      d and n - d. */
  lemma DivBounds(n: real, d: real)
    requires d != 0.0
    ensures d > 0.0 && n <= 0.0 ==> n / d <= 0.0
    ensures d > 0.0 && n >= d ==> n / d >= 1.0
    ensures d < 0.0 && n >= 0.0 ==> n / d <= 0.0
    ensures d < 0.0 && n <= d ==> n / d >= 1.0
  {
    var q := n / d;
    assert q * d == n;
  }
}

=== FILE: kinematics.dfy ===
/** The records the controller works on: its tuning parameters, the
    per-frame input snapshot, the geometry oracles standing in for the
    physics engine's queries, and the controller's own mutable state,
    gathered into one immutable value passed from stage to stage. */
module Kinematics {
  import opened EngineMath

  /** The serialized tuning fields of MainPlayerController. The probe length
      and the ground layer mask are not here: they are folded into the
      `hits` and `overlaps` oracles of World. */
  datatype Config = Config(
    size: Vec2,                    // _CharacterBounds.size
    detectorCount: int,            // _DetectorCount
    rayBuffer: real,               // _RayBuffer
    acceleration: real,            // _acceleration
    moveClamp: real,               // _moveClamp
    deAcceleration: real,          // _deAcceleration
    apexBonus: real,               // _apexBounds
    fallClamp: real,               // _fallClamp
    minFallSpeed: real,            // _minFallSpeed
    maxFallSpeed: real,            // _maxFallSpeed
    jumpHeight: real,              // _jumpHeight
    jumpApexThreshold: real,       // _jumpApexThreshold
    coyoteTimeThreshold: real,     // _coyoteTimeThreshold
    jumpBuffer: real,              // _jumpBuffer
    jumpEndEarlyGravityModifier: real,
    freeColliderIterations: int    // _freeColliderIterations
  )

  /** The field initialisers of the source, for a character of the given
      size (the bounds are set in the editor and have no default). */
  function DefaultConfig(size: Vec2): (c: Config)
    ensures c.detectorCount >= 2 && c.freeColliderIterations >= 2
    ensures c.fallClamp <= 0.0 <= c.jumpHeight
    ensures 0.0 <= c.minFallSpeed <= c.maxFallSpeed
  {
    Config(size, 3, 0.1, 90.0, 13.0, 60.0, 2.0, -40.0, 80.0, 120.0,
           30.0, 10.0, 0.1, 0.1, 3.0, 10)
  }

  /** The only parameter value on which the source's per-frame arithmetic
      is undefined: one detector makes the sampling divide zero by zero. */
  predicate WellDefined(cfg: Config)
  {
    cfg.detectorCount != 1
  }

  /** The input snapshot taken at the start of a frame. */
  datatype FrameInput = FrameInput(jumpDown: bool, jumpUp: bool, x: real)

  /** The physics engine's queries against the ground layer, as oracles:
      `hits(origin, dir)` is a ray cast of the configured length,
      `overlaps(center)` is a box overlap test with the character's size,
      `obstacleAt(center)` is the position of the collider such a test
      reports, and `pushScale(dir, move)` is the factor k >= 0 with
      dir.normalized * move.magnitude == dir * k, that is
      |move| / |dir| (0 for a zero dir), which needs a square root and is
      left abstract apart from its sign. */
  datatype World = World(
    hits: (Vec2, Vec2) -> bool,
    overlaps: Vec2 -> bool,
    obstacleAt: Vec2 -> Vec2,
    pushScale: (Vec2, Vec2) -> NonNegReal
  )

  /** float.MinValue, which JumpCalc stores as the left-ground time so that
      no coyote window can be open after a jump. */
  const Sentinel: real := -340282346638528859811704183484516925440.0

  /** The controller's state between frames, including the public signals
      it exposes (grounded, jumped and landed this frame, raw movement). */
  datatype State = State(
    pos: Vec2,                 // transform.position
    h: real,                   // _CurrentHorizontalSpeed
    v: real,                   // _CurrentVerticalSpeed
    colUp: bool,
    colRight: bool,
    colDown: bool,             // also IsGrounded
    colLeft: bool,
    coyoteUsable: bool,
    timeLeftGrounded: real,
    lastJumpPressed: real,
    endedJumpEarly: bool,
    apexPoint: real,
    fallSpeed: real,
    isJumping: bool,           // IsJumpingThisFrame
    isLanding: bool,           // IsLandingThisFrame
    rawMovement: Vec2          // RawMovements
  )

  /** A freshly activated controller: every field holds its C# default
      except _endedJumpEarly, which is initialised to true. */
  function Init(pos: Vec2): (s: State)
    ensures s.pos == pos && s.h == 0.0 && s.v == 0.0
    ensures !s.coyoteUsable && !s.colDown && s.endedJumpEarly
    ensures s.lastJumpPressed == 0.0 && s.apexPoint == 0.0
  {
    State(pos, 0.0, 0.0, false, false, false, false, false, 0.0, 0.0,
          true, 0.0, 0.0, false, false, Vec2(0.0, 0.0))
  }
}

=== FILE: move.dfy ===
/** The move resolver (CharacterMove): commit the integrated displacement
    when its target is free; otherwise walk toward the target in fixed
    fractions and stop at the candidate before the first blocked one, with
    a push toward the obstacle when even the first candidate is blocked, or
    stay in place when no candidate is blocked. */
module Move {
  import opened EngineMath
  import opened Kinematics

  /** What CharacterMove leaves behind: the new position and the vertical
      speed, which the first-step correction may zero. */
  datatype Moved = Moved(pos: Vec2, v: real)

  /** The displacement for this frame, (h, v) * dt. */
  function Displacement(h: real, v: real, dt: real): Vec2
  {
    Vec2(h * dt, v * dt)
  }

  /** The i-th of the n candidate positions on the way from pos to target. */
  function Candidate(pos: Vec2, target: Vec2, i: int, n: int): Vec2
    requires n > 0
  {
    LerpVec(pos, target, i as real / n as real)
  }

  /** Candidate i lies the fraction i / n of the way from pos to target. */
  lemma CandidateOnSegment(pos: Vec2, target: Vec2, i: int, n: int)
    requires 0 <= i <= n && 0 < n
    ensures Candidate(pos, target, i, n) == Add(pos, Scale(Sub(target, pos), i as real / n as real))
    ensures i == 0 ==> Candidate(pos, target, i, n) == pos
    ensures i == n ==> Candidate(pos, target, i, n) == target
  {
    FractionInUnit(i, n);
  }

  /** The position the first-step correction produces from `at`: the
      direction from the obstacle found at the target to `at`, normalised
      and scaled by MINUS the attempted move's length. */
  function Nudged(at: Vec2, target: Vec2, move: Vec2, world: World): Vec2
  {
    var dir := Sub(at, world.obstacleAt(target));
    Add(at, Scale(dir, -(world.pushScale(dir, move) as real)))
  }

  /** The first-step correction never moves away from the obstacle: its
      push has a non-positive component along the obstacle-to-character
      direction, so the character is pushed toward the obstacle (or not at
      all). */
  lemma NudgeTowardObstacle(at: Vec2, target: Vec2, move: Vec2, world: World)
    ensures var dir := Sub(at, world.obstacleAt(target));
      Dot(Sub(Nudged(at, target, move, world), at), dir) <= 0.0
  {
    var dir := Sub(at, world.obstacleAt(target));
    var k: real := world.pushScale(dir, move);
    var push := Sub(Nudged(at, target, move, world), at);
    assert push == Scale(dir, -k);
    PushAgainst(dir, k, Dot(push, dir));
  }

  /** -k * |dir|^2 <= 0 for k >= 0; the dot product is passed in as `d` so
      that the caller's own term is matched as it stands. */
  lemma PushAgainst(dir: Vec2, k: real, d: real)
    requires 0.0 <= k
    requires d == Dot(Scale(dir, -k), dir)
    ensures d <= 0.0
  {
    var sq := dir.x * dir.x + dir.y * dir.y;
    assert d == -(k * sq);
    MulNonneg(k, sq, k * sq);
  }

  /** The loop of CharacterMove from iteration i on; `safe` is the loop's
      positionToMoveTo. The first overlapping candidate ends the loop:
      the position becomes `safe`, and on iteration 1 a falling speed is
      stopped and the position nudged. A loop that finds nothing leaves
      the position where it was. */
  function Sweep(pos: Vec2, target: Vec2, move: Vec2, n: int, i: int, safe: Vec2, v: real,
                 world: World): (r: Moved)
    requires 1 <= i
    decreases n - i
    ensures r.v == v || (v < 0.0 && r.v == 0.0)
    ensures i > 1 ==> r.v == v
  {
    if i >= n then Moved(pos, v)
    else
      var c := Candidate(pos, target, i, n);
      if world.overlaps(c) then
        if i == 1 then Moved(Nudged(safe, target, move, world), if v < 0.0 then 0.0 else v)
        else Moved(safe, v)
      else Sweep(pos, target, move, n, i + 1, c, v, world)
  }

  /** CharacterMove with n = freeColliderIterations: a free target is
      reached exactly, and the vertical speed changes only by stopping a
      fall. */
  function CharacterMove(pos: Vec2, h: real, v: real, dt: real, n: int, world: World): (r: Moved)
    ensures !world.overlaps(Add(pos, Displacement(h, v, dt))) ==> r == Moved(Add(pos, Displacement(h, v, dt)), v)
    ensures r.v == v || (v < 0.0 && r.v == 0.0)
  {
    var move := Displacement(h, v, dt);
    var target := Add(pos, move);
    if !world.overlaps(target) then Moved(target, v)
    else Sweep(pos, target, move, n, 1, pos, v, world)
  }

  /** Candidates 1 .. i-1 are all free. */
  ghost predicate FreeBefore(pos: Vec2, target: Vec2, n: int, world: World, i: int)
  {
    forall j :: 1 <= j < i && j <= n ==> !world.overlaps(Candidate(pos, target, j, n))
  }

  /** Step i of the loop is the first whose candidate overlaps. */
  ghost predicate FirstBlocked(pos: Vec2, target: Vec2, n: int, world: World, i: int)
  {
    1 <= i < n && world.overlaps(Candidate(pos, target, i, n)) && FreeBefore(pos, target, n, world, i)
  }

  /** From iteration i, with every earlier candidate free and `safe` the
      last of them (or the start), the sweep ends at the first blocked step
      j: at candidate j - 1 when j > 1, at the nudged start when j == 1. */
  lemma {:induction false} SweepStopsAtFirstBlocked(pos: Vec2, target: Vec2, move: Vec2, n: int,
                                                    i: int, safe: Vec2, v: real, world: World, j: int)
    requires 1 <= i <= j
    requires FirstBlocked(pos, target, n, world, j)
    requires safe == if i == 1 then pos else Candidate(pos, target, i - 1, n)
    decreases j - i
    ensures j > 1 ==> Sweep(pos, target, move, n, i, safe, v, world) == Moved(Candidate(pos, target, j - 1, n), v)
    ensures j == 1 ==> Sweep(pos, target, move, n, i, safe, v, world) ==
                       Moved(Nudged(pos, target, move, world), if v < 0.0 then 0.0 else v)
  {
    if i < j {
      var c := Candidate(pos, target, i, n);
      assert !world.overlaps(c);
      SweepStopsAtFirstBlocked(pos, target, move, n, i + 1, c, v, world, j);
    }
  }

  /** When no candidate from iteration i on overlaps, the sweep leaves the
      position at the start. */
  lemma {:induction false} SweepFindsNothing(pos: Vec2, target: Vec2, move: Vec2, n: int,
                                             i: int, safe: Vec2, v: real, world: World)
    requires 1 <= i
    requires FreeBefore(pos, target, n, world, n)
    decreases n - i
    ensures Sweep(pos, target, move, n, i, safe, v, world) == Moved(pos, v)
  {
    if i < n {
      SweepFindsNothing(pos, target, move, n, i + 1, Candidate(pos, target, i, n), v, world);
    }
  }

  /** CharacterMove, case by case: a free target is reached exactly; a
      blocked one leaves the character at the last candidate found free
      before the first blocked step (so never at an overlapping position),
      or, if that step is the first, at the nudged start with any falling
      speed stopped; and if no candidate is blocked, where it was. */
  lemma CharacterMoveOutcome(pos: Vec2, h: real, v: real, dt: real, n: int, world: World, j: int)
    ensures var target := Add(pos, Displacement(h, v, dt));
      var r := CharacterMove(pos, h, v, dt, n, world);
      && (!world.overlaps(target) ==> r == Moved(target, v))
      && (world.overlaps(target) && FirstBlocked(pos, target, n, world, j) && j > 1 ==>
            r == Moved(Candidate(pos, target, j - 1, n), v) && !world.overlaps(r.pos))
      && (world.overlaps(target) && FirstBlocked(pos, target, n, world, 1) ==>
            r.pos == Nudged(pos, target, Displacement(h, v, dt), world) && r.v >= 0.0 &&
            (v >= 0.0 ==> r.v == v))
      && (world.overlaps(target) && FreeBefore(pos, target, n, world, n) ==> r == Moved(pos, v))
  {
    var move := Displacement(h, v, dt);
    var target := Add(pos, move);
    if world.overlaps(target) {
      if FirstBlocked(pos, target, n, world, j) {
        SweepStopsAtFirstBlocked(pos, target, move, n, 1, pos, v, world, j);
        if j > 1 {
          assert FreeBefore(pos, target, n, world, j);
          assert !world.overlaps(Candidate(pos, target, j - 1, n));
        }
      }
      if FirstBlocked(pos, target, n, world, 1) {
        SweepStopsAtFirstBlocked(pos, target, move, n, 1, pos, v, world, 1);
      }
      if FreeBefore(pos, target, n, world, n) {
        SweepFindsNothing(pos, target, move, n, 1, pos, v, world);
      }
    }
  }

  /** The cases above are exhaustive: from any iteration i, either some
      later step is the first blocked one or none is blocked. */
  lemma {:induction false} SweepCasesExhaustive(pos: Vec2, target: Vec2, n: int, world: World, i: int)
    requires 1 <= i
    requires FreeBefore(pos, target, n, world, i)
    decreases n - i
    ensures (exists j :: i <= j && FirstBlocked(pos, target, n, world, j)) || FreeBefore(pos, target, n, world, n)
  {
    if i < n {
      if world.overlaps(Candidate(pos, target, i, n)) {
        assert FirstBlocked(pos, target, n, world, i);
      } else {
        SweepCasesExhaustive(pos, target, n, world, i + 1);
      }
    }
  }
}

=== FILE: player.dfy ===
/** The per-frame pipeline of MainPlayerController.Update, composed from
    the stages in their fixed order, and the properties of every state a
    controller can reach from activation. */
module Player {
  import opened EngineMath
  import opened Kinematics
  import opened Collisions
  import opened Walking
  import opened Vertical
  import opened Move

  /** What the host supplies each frame: the input snapshot, the clock
      (Time.time and Time.deltaTime) and the vertical component of the
      velocity measured from the previous frame's displacement. */
  datatype Frame = Frame(input: FrameInput, now: real, dt: real, velY: real)

  /** GrabInput: the only effect beyond the snapshot itself is stamping the
      time of a jump press. */
  function GrabInput(s: State, input: FrameInput, now: real): (r: State)
    ensures input.jumpDown ==> r.lastJumpPressed == now
    ensures r == s.(lastJumpPressed := r.lastJumpPressed)
    ensures !input.jumpDown ==> r == s
  {
    if input.jumpDown then s.(lastJumpPressed := now) else s
  }

  /** The horizontal speed bound that holds after any frame with input:
      the clamp plus the largest apex bonus for that frame. */
  function HorizontalBound(cfg: Config, dt: real): real
  {
    cfg.moveClamp + cfg.apexBonus * dt
  }

  /** GrabInput then CollisionChecks: stamp a jump press, refresh the
      contact flags and the ground bookkeeping. */
  function Sense(s: State, f: Frame, cfg: Config, world: World): (r: State)
    requires WellDefined(cfg)
    ensures r.pos == s.pos && r.h == s.h && r.v == s.v && r.apexPoint == s.apexPoint
    ensures r.coyoteUsable ==> s.coyoteUsable
    ensures f.input.jumpDown ==> r.lastJumpPressed == f.now
    ensures !f.input.jumpDown ==> r.lastJumpPressed == s.lastJumpPressed
    ensures r.isLanding <==> !s.colDown && r.colDown
  {
    CollisionChecks(GrabInput(s, f.input, f.now), cfg, world, f.now)
  }

  /** WalkingCalc, ApexJumpCalc, GravityCalc and JumpCalc, reading the
      contact flags Sense has just refreshed. WalkingCalc reads the apex
      point left by the previous frame, because ApexJumpCalc runs after
      it. */
  function Steer(s: State, f: Frame, cfg: Config): (r: State)
    ensures r.pos == s.pos && r.lastJumpPressed == s.lastJumpPressed && r.isLanding == s.isLanding
    ensures r.colUp == s.colUp && r.colDown == s.colDown && r.colLeft == s.colLeft && r.colRight == s.colRight
    ensures r.coyoteUsable ==> s.coyoteUsable
    ensures 0.0 <= r.apexPoint <= 1.0 && (r.colDown ==> r.apexPoint == 0.0)
    ensures !(r.h > 0.0 && r.colRight) && !(r.h < 0.0 && r.colLeft)
    ensures cfg.fallClamp <= 0.0 <= cfg.jumpHeight ==> r.v >= cfg.fallClamp
    ensures r.colUp ==> r.v <= 0.0
    ensures !s.coyoteUsable ==>
              (r.isJumping <==> s.colDown && s.lastJumpPressed + cfg.jumpBuffer > f.now)
    ensures r.h == WalkingCalc(s.h, f.input, s.apexPoint, s.colLeft, s.colRight, cfg, f.dt)
  {
    var h := WalkingCalc(s.h, f.input, s.apexPoint, s.colLeft, s.colRight, cfg, f.dt);
    VerticalStages(s.(h := h), f, cfg)
  }

  /** ApexJumpCalc, GravityCalc and JumpCalc. */
  function VerticalStages(s: State, f: Frame, cfg: Config): (r: State)
    ensures r.pos == s.pos && r.h == s.h && r.lastJumpPressed == s.lastJumpPressed && r.isLanding == s.isLanding
    ensures r.colUp == s.colUp && r.colDown == s.colDown && r.colLeft == s.colLeft && r.colRight == s.colRight
    ensures r.coyoteUsable ==> s.coyoteUsable
    ensures 0.0 <= r.apexPoint <= 1.0 && (r.colDown ==> r.apexPoint == 0.0)
    ensures cfg.fallClamp <= 0.0 <= cfg.jumpHeight ==> r.v >= cfg.fallClamp
    ensures r.colUp ==> r.v <= 0.0
    ensures !s.coyoteUsable ==>
              (r.isJumping <==> s.colDown && s.lastJumpPressed + cfg.jumpBuffer > f.now)
  {
    var s4 := ApexJumpCalc(s, f.velY, cfg);
    var s5 := GravityCalc(s4, cfg, f.dt);
    assert cfg.fallClamp <= 0.0 ==> s5.v >= cfg.fallClamp;
    JumpCalc(s5, f.input, cfg, f.now, f.velY)
  }

  /** The stages of Update before the move, in their fixed order. */
  function Velocities(s: State, f: Frame, cfg: Config, world: World): (r: State)
    requires WellDefined(cfg)
    ensures r.pos == s.pos
    ensures r.coyoteUsable ==> s.coyoteUsable
    ensures f.input.jumpDown ==> r.lastJumpPressed == f.now
    ensures !f.input.jumpDown ==> r.lastJumpPressed == s.lastJumpPressed
    ensures r.isLanding <==> !s.colDown && r.colDown
    ensures 0.0 <= r.apexPoint <= 1.0 && (r.colDown ==> r.apexPoint == 0.0)
    ensures !(r.h > 0.0 && r.colRight) && !(r.h < 0.0 && r.colLeft)
    ensures cfg.fallClamp <= 0.0 <= cfg.jumpHeight ==> r.v >= cfg.fallClamp
    ensures r.colUp ==> r.v <= 0.0
    ensures !s.coyoteUsable ==>
              (r.isJumping <==> r.colDown && r.lastJumpPressed + cfg.jumpBuffer > f.now)
    ensures r.h == WalkingCalc(s.h, f.input, s.apexPoint, r.colLeft, r.colRight, cfg, f.dt)
  {
    Steer(Sense(s, f, cfg, world), f, cfg)
  }

  /** Update: the velocity stages, then CharacterMove, which records the
      raw movement and may stop a fall. */
  function Step(s: State, f: Frame, cfg: Config, world: World): (r: State)
    requires WellDefined(cfg)
    ensures r.coyoteUsable ==> s.coyoteUsable
    ensures f.input.jumpDown ==> r.lastJumpPressed == f.now
    ensures !f.input.jumpDown ==> r.lastJumpPressed == s.lastJumpPressed
    ensures r.isLanding <==> !s.colDown && r.colDown
    ensures 0.0 <= r.apexPoint <= 1.0 && (r.colDown ==> r.apexPoint == 0.0)
    ensures !(r.h > 0.0 && r.colRight) && !(r.h < 0.0 && r.colLeft)
    ensures cfg.fallClamp <= 0.0 <= cfg.jumpHeight ==> r.v >= cfg.fallClamp
    ensures r.colUp ==> r.rawMovement.y <= 0.0
    ensures r.rawMovement.x == r.h
    ensures !s.coyoteUsable ==>
              (r.isJumping <==> r.colDown && r.lastJumpPressed + cfg.jumpBuffer > f.now)
    ensures r.h == WalkingCalc(s.h, f.input, s.apexPoint, r.colLeft, r.colRight, cfg, f.dt)
    ensures r.v == r.rawMovement.y || (r.rawMovement.y < 0.0 && r.v == 0.0)
    ensures r.pos == CharacterMove(s.pos, r.rawMovement.x, r.rawMovement.y, f.dt,
                                   cfg.freeColliderIterations, world).pos
    ensures !world.overlaps(Add(s.pos, Displacement(r.rawMovement.x, r.rawMovement.y, f.dt))) ==>
              r.pos == Add(s.pos, Displacement(r.rawMovement.x, r.rawMovement.y, f.dt))
  {
    ApplyMove(Velocities(s, f, cfg, world), f.dt, cfg.freeColliderIterations, world)
  }

  /** The last stage of Update: record the raw movement (the velocity
      before the move) and let CharacterMove set the position and possibly
      stop a fall. */
  function ApplyMove(p: State, dt: real, n: int, world: World): (r: State)
    ensures r == p.(pos := r.pos, v := r.v, rawMovement := r.rawMovement)
    ensures r.rawMovement == Vec2(p.h, p.v)
    ensures r.v == p.v || (p.v < 0.0 && r.v == 0.0)
    ensures r.pos == CharacterMove(p.pos, p.h, p.v, dt, n, world).pos
    ensures !world.overlaps(Add(p.pos, Displacement(p.h, p.v, dt))) ==>
              r.pos == Add(p.pos, Displacement(p.h, p.v, dt))
  {
    var m := CharacterMove(p.pos, p.h, p.v, dt, n, world);
    p.(pos := m.pos, v := m.v, rawMovement := Vec2(p.h, p.v))
  }

  /** The state after running the frames in order: after at least one
      frame the apex point is in [0, 1] and 0 on the ground, and no frame
      turns the coyote flag on. */
  function Run(s: State, frames: seq<Frame>, cfg: Config, world: World): (r: State)
    requires WellDefined(cfg)
    decreases |frames|
    ensures |frames| > 0 ==> 0.0 <= r.apexPoint <= 1.0 && (r.colDown ==> r.apexPoint == 0.0)
    ensures |frames| > 0 ==> !(r.h > 0.0 && r.colRight) && !(r.h < 0.0 && r.colLeft)
  {
    if |frames| == 0 then s else Run(Step(s, frames[0], cfg, world), frames[1..], cfg, world)
  }

  /** The coyote flag starts false and every assignment to it is false, so
      it is false in every state reachable from activation. */
  lemma {:induction false} CoyoteNeverUsable(s: State, frames: seq<Frame>, cfg: Config, world: World)
    requires WellDefined(cfg)
    requires !s.coyoteUsable
    decreases |frames|
    ensures !Run(s, frames, cfg, world).coyoteUsable
  {
    if |frames| > 0 {
      CoyoteNeverUsable(Step(s, frames[0], cfg, world), frames[1..], cfg, world);
    }
  }

  /** Hence, in a reachable state, coyote time never applies: a frame jumps
      exactly when the character is grounded after this frame's checks and
      jump was pressed less than jumpBuffer ago (counting a press this
      frame), and an airborne character never jumps, however recently it
      left the ground. */
  lemma ReachableJumpRule(p: Vec2, frames: seq<Frame>, f: Frame, cfg: Config, world: World)
    requires WellDefined(cfg)
    ensures var s := Run(Init(p), frames, cfg, world);
      var r := Step(s, f, cfg, world);
      && !s.coyoteUsable
      && (r.isJumping <==> r.colDown && r.lastJumpPressed + cfg.jumpBuffer > f.now)
      && (!r.colDown ==> !r.isJumping)
  {
    CoyoteNeverUsable(Init(p), frames, cfg, world);
  }

  /** The frame invariants: the apex point stays in [0, 1] and is 0 on the
      ground, no horizontal speed points into a wall in contact, and with a
      non-positive fall clamp and a non-negative jump height the vertical
      speed never drops below the fall clamp. */
  ghost predicate FrameInvariant(s: State, cfg: Config)
  {
    && 0.0 <= s.apexPoint <= 1.0
    && (s.colDown ==> s.apexPoint == 0.0)
    && !(s.h > 0.0 && s.colRight) && !(s.h < 0.0 && s.colLeft)
    && (cfg.fallClamp <= 0.0 <= cfg.jumpHeight ==> s.v >= cfg.fallClamp)
  }

  lemma InvariantHolds(p: Vec2, frames: seq<Frame>, cfg: Config, world: World)
    requires WellDefined(cfg)
    ensures FrameInvariant(Run(Init(p), frames, cfg, world), cfg)
  {
    RunKeepsInvariant(Init(p), frames, cfg, world);
  }

  lemma {:induction false} RunKeepsInvariant(s: State, frames: seq<Frame>, cfg: Config, world: World)
    requires WellDefined(cfg)
    requires FrameInvariant(s, cfg)
    decreases |frames|
    ensures FrameInvariant(Run(s, frames, cfg, world), cfg)
  {
    if |frames| > 0 {
      RunKeepsInvariant(Step(s, frames[0], cfg, world), frames[1..], cfg, world);
    }
  }

  /** One frame's WalkingCalc keeps the horizontal speed within
      moveClamp + apexBonus * maxDt when its dt is in [0, maxDt]: with input
      it lands within this frame's bound, without input it does not grow. */
  lemma WalkKeepsHorizontalBound(h: real, input: FrameInput, apexPoint: real, colLeft: bool,
                                 colRight: bool, cfg: Config, dt: real, maxDt: real)
    requires 0.0 <= cfg.moveClamp && 0.0 <= cfg.apexBonus && 0.0 <= cfg.deAcceleration
    requires 0.0 <= dt <= maxDt
    requires 0.0 <= apexPoint <= 1.0
    requires Abs(h) <= HorizontalBound(cfg, maxDt)
    ensures Abs(WalkingCalc(h, input, apexPoint, colLeft, colRight, cfg, dt)) <= HorizontalBound(cfg, maxDt)
  {
    if input.x != 0.0 {
      DriveWithinBound(h, input, apexPoint, colLeft, colRight, cfg, dt, maxDt);
    } else {
      CoastWithinBound(h, input, apexPoint, colLeft, colRight, cfg, dt, maxDt);
    }
  }

  lemma DriveWithinBound(h: real, input: FrameInput, apexPoint: real, colLeft: bool,
                         colRight: bool, cfg: Config, dt: real, maxDt: real)
    requires input.x != 0.0
    requires 0.0 <= cfg.moveClamp && 0.0 <= cfg.apexBonus
    requires 0.0 <= dt <= maxDt
    requires 0.0 <= apexPoint <= 1.0
    ensures Abs(WalkingCalc(h, input, apexPoint, colLeft, colRight, cfg, dt)) <= HorizontalBound(cfg, maxDt)
  {
    BonusGrowsWithDt(cfg.apexBonus, dt, maxDt);
  }

  lemma CoastWithinBound(h: real, input: FrameInput, apexPoint: real, colLeft: bool,
                         colRight: bool, cfg: Config, dt: real, maxDt: real)
    requires input.x == 0.0
    requires 0.0 <= cfg.deAcceleration && 0.0 <= dt
    requires Abs(h) <= HorizontalBound(cfg, maxDt)
    ensures Abs(WalkingCalc(h, input, apexPoint, colLeft, colRight, cfg, dt)) <= HorizontalBound(cfg, maxDt)
  {
    MulNonneg(cfg.deAcceleration, dt, cfg.deAcceleration * dt);
  }

  /** With non-negative tuning and every frame's dt in [0, maxDt], the
      horizontal speed stays within the clamp plus the largest apex bonus,
      moveClamp + apexBonus * maxDt: a frame with input lands inside it, a
      frame without input never grows the speed. */
  lemma {:induction false} HorizontalSpeedBounded(s: State, frames: seq<Frame>, cfg: Config,
                                                  world: World, maxDt: real)
    requires WellDefined(cfg)
    requires 0.0 <= cfg.moveClamp && 0.0 <= cfg.apexBonus && 0.0 <= cfg.deAcceleration
    requires forall k :: 0 <= k < |frames| ==> 0.0 <= frames[k].dt <= maxDt
    requires 0.0 <= s.apexPoint <= 1.0
    requires Abs(s.h) <= HorizontalBound(cfg, maxDt)
    decreases |frames|
    ensures Abs(Run(s, frames, cfg, world).h) <= HorizontalBound(cfg, maxDt)
  {
    if |frames| > 0 {
      var f := frames[0];
      var r := Step(s, f, cfg, world);
      WalkKeepsHorizontalBound(s.h, f.input, s.apexPoint, r.colLeft, r.colRight, cfg, f.dt, maxDt);
      var rest := frames[1..];
      assert forall k :: 0 <= k < |rest| ==> rest[k] == frames[k + 1];
      HorizontalSpeedBounded(r, rest, cfg, world, maxDt);
    }
  }

  lemma BonusGrowsWithDt(ab: real, dt: real, maxDt: real)
    requires 0.0 <= ab && dt <= maxDt
    ensures ab * dt <= ab * maxDt
  {
    MulNonneg(ab, maxDt - dt, ab * (maxDt - dt));
  }

  /** As written, _lastJumpPressed starts at 0, so on a frame with no jump
      press before time jumpBuffer a grounded character jumps by itself. */
  lemma StartupJumpWithoutPress(p: Vec2, f: Frame, cfg: Config, world: World)
    requires WellDefined(cfg)
    requires !f.input.jumpDown
    requires 0.0 <= f.now < cfg.jumpBuffer
    ensures Step(Init(p), f, cfg, world).colDown ==> Step(Init(p), f, cfg, world).isJumping
  {
  }
}

=== FILE: vertical.dfy ===
/** The vertical velocity model: apex proximity and fall speed
    (ApexJumpCalc), gravity with the early-release multiplier and the
    terminal clamp (GravityCalc), and jump triggering, early release and the
    ceiling clamp (JumpCalc). `velY` is the vertical component of the
    velocity measured from the last frame's displacement. */
module Vertical {
  import opened EngineMath
  import opened Kinematics

  /** ApexJumpCalc: airborne, the apex point is how close the measured
      vertical speed is to zero on a scale of jumpApexThreshold, and the
      fall speed is interpolated from it; grounded, the apex point is 0 and
      the fall speed keeps its previous value. */
  function ApexJumpCalc(s: State, velY: real, cfg: Config): (r: State)
    ensures 0.0 <= r.apexPoint <= 1.0
    ensures s.colDown ==> r.apexPoint == 0.0 && r.fallSpeed == s.fallSpeed
    ensures !s.colDown && cfg.minFallSpeed <= cfg.maxFallSpeed ==>
              cfg.minFallSpeed <= r.fallSpeed <= cfg.maxFallSpeed
    ensures r == s.(apexPoint := r.apexPoint, fallSpeed := r.fallSpeed)
  {
    if !s.colDown then
      var ap := InverseLerp(cfg.jumpApexThreshold, 0.0, Abs(velY));
      s.(apexPoint := ap, fallSpeed := Lerp(cfg.minFallSpeed, cfg.maxFallSpeed, ap))
    else
      s.(apexPoint := 0.0)
  }

  /** Airborne with a positive threshold, the apex point falls linearly
      from 1 at zero vertical speed to 0 at the threshold and stays 0
      beyond it. The fall speed is therefore maxFallSpeed at the apex and
      minFallSpeed away from it. */
  lemma ApexRamp(s: State, velY: real, cfg: Config)
    requires !s.colDown
    requires cfg.jumpApexThreshold > 0.0
    ensures var r := ApexJumpCalc(s, velY, cfg);
      && (Abs(velY) >= cfg.jumpApexThreshold ==> r.apexPoint == 0.0)
      && (Abs(velY) <= cfg.jumpApexThreshold ==>
            r.apexPoint * cfg.jumpApexThreshold == cfg.jumpApexThreshold - Abs(velY))
      && (velY == 0.0 ==> r.apexPoint == 1.0 && r.fallSpeed == cfg.maxFallSpeed)
      && (Abs(velY) >= cfg.jumpApexThreshold ==> r.fallSpeed == cfg.minFallSpeed)
  {
    var th := cfg.jumpApexThreshold;
    var a := Abs(velY);
    var ap := InverseLerp(th, 0.0, a);
    InverseLerpToZero(th, a);
    var fs := Lerp(cfg.minFallSpeed, cfg.maxFallSpeed, ap);
    assert ap == 1.0 ==> fs == cfg.maxFallSpeed;
    assert ap == 0.0 ==> fs == cfg.minFallSpeed;
  }

  /** InverseLerp(th, 0, a) for a positive threshold and a magnitude a. */
  lemma InverseLerpToZero(th: real, a: real)
    requires th > 0.0 && a >= 0.0
    ensures a >= th ==> InverseLerp(th, 0.0, a) == 0.0
    ensures a <= th ==> InverseLerp(th, 0.0, a) * th == th - a
    ensures a == 0.0 ==> InverseLerp(th, 0.0, a) == 1.0
  {
    var q := (a - th) / (0.0 - th);
    assert q * (0.0 - th) == a - th;
    assert q == (th - a) / th;
    if a >= th {
      assert q <= 0.0;
      assert InverseLerp(th, 0.0, a) == 0.0;
    } else {
      RatioInUnit(th - a, th);
      assert InverseLerp(th, 0.0, a) == q;
    }
  }

  /** The gravity actually applied this frame: multiplied when the jump
      was released early and the character is still rising, and otherwise
      the fall speed itself. With a non-negative fall speed and a
      multiplier of at least 1, an early release never weakens it. */
  function Gravity(s: State, cfg: Config): (g: real)
    ensures s.endedJumpEarly && s.v > 0.0 ==> g == s.fallSpeed * cfg.jumpEndEarlyGravityModifier
    ensures !(s.endedJumpEarly && s.v > 0.0) ==> g == s.fallSpeed
    ensures 0.0 <= s.fallSpeed && 1.0 <= cfg.jumpEndEarlyGravityModifier ==> g >= s.fallSpeed
  {
    if s.endedJumpEarly && s.v > 0.0 then
      var g := s.fallSpeed * cfg.jumpEndEarlyGravityModifier;
      if 0.0 <= s.fallSpeed && 1.0 <= cfg.jumpEndEarlyGravityModifier then
        MulNonneg(s.fallSpeed, cfg.jumpEndEarlyGravityModifier - 1.0,
                  s.fallSpeed * (cfg.jumpEndEarlyGravityModifier - 1.0));
        g
      else g
    else s.fallSpeed
  }

  /** GravityCalc: grounded, a downward speed is stopped and an upward one
      kept; airborne, gravity is subtracted and the result never drops
      below fallClamp. Only the vertical speed changes. */
  function GravityCalc(s: State, cfg: Config, dt: real): (r: State)
    ensures s.colDown ==> r.v >= 0.0 && (s.v >= 0.0 ==> r.v == s.v)
    ensures s.colDown && s.v < 0.0 ==> r.v == 0.0
    ensures !s.colDown ==> r.v >= cfg.fallClamp
    ensures !s.colDown && s.v - Gravity(s, cfg) * dt >= cfg.fallClamp ==> r.v == s.v - Gravity(s, cfg) * dt
    ensures !s.colDown && s.v - Gravity(s, cfg) * dt < cfg.fallClamp ==> r.v == cfg.fallClamp
    ensures r == s.(v := r.v)
  {
    if s.colDown then
      if s.v < 0.0 then s.(v := 0.0) else s
    else
      var v := s.v - Gravity(s, cfg) * dt;
      s.(v := if v < cfg.fallClamp then cfg.fallClamp else v)
  }

  /** Releasing the jump early makes a rising, airborne character lose at
      least as much upward speed this frame as it would have otherwise,
      whenever the multiplier is at least 1. */
  lemma EarlyReleaseFallsFaster(s: State, cfg: Config, dt: real)
    requires !s.colDown && s.v > 0.0
    requires 0.0 <= s.fallSpeed && 1.0 <= cfg.jumpEndEarlyGravityModifier && 0.0 <= dt
    ensures GravityCalc(s.(endedJumpEarly := true), cfg, dt).v <= GravityCalc(s.(endedJumpEarly := false), cfg, dt).v
  {
    var g := s.fallSpeed * dt;
    var m := cfg.jumpEndEarlyGravityModifier;
    MulNonneg(s.fallSpeed, dt, g);
    assert s.fallSpeed * m * dt == m * g;
    assert m * g - g == (m - 1.0) * g;
    MulNonneg(m - 1.0, g, (m - 1.0) * g);
  }

  /** Coyote time: the flag is set, the character is airborne, and it left
      the ground less than coyoteTimeThreshold ago. */
  predicate CanUseCoyote(s: State, cfg: Config, now: real)
  {
    s.coyoteUsable && !s.colDown && s.timeLeftGrounded + cfg.coyoteTimeThreshold > now
  }

  /** Jump buffer: grounded, and jump was pressed less than jumpBuffer ago. */
  predicate HasBufferedJump(s: State, cfg: Config, now: real)
  {
    s.colDown && s.lastJumpPressed + cfg.jumpBuffer > now
  }

  /** The trigger condition of JumpCalc. */
  predicate JumpTriggered(s: State, input: FrameInput, cfg: Config, now: real)
  {
    (input.jumpDown && CanUseCoyote(s, cfg, now)) || HasBufferedJump(s, cfg, now)
  }

  /** The two windows of the trigger never overlap: coyote time needs the
      character airborne, the jump buffer needs it grounded. So on the
      ground a jump fires iff jump was pressed less than jumpBuffer ago,
      and in the air iff jump is pressed this frame with the coyote flag set
      less than coyoteTimeThreshold after leaving the ground. */
  lemma JumpTriggerCases(s: State, input: FrameInput, cfg: Config, now: real)
    ensures !(CanUseCoyote(s, cfg, now) && HasBufferedJump(s, cfg, now))
    ensures s.colDown ==> (JumpTriggered(s, input, cfg, now) <==> s.lastJumpPressed + cfg.jumpBuffer > now)
    ensures !s.colDown ==>
              (JumpTriggered(s, input, cfg, now) <==>
                 input.jumpDown && s.coyoteUsable && s.timeLeftGrounded + cfg.coyoteTimeThreshold > now)
  {
  }

  /** JumpCalc: trigger a jump (set the jump speed, clear the early-release
      and coyote flags, push the left-ground time to the sentinel), then
      flag an early release, then stop upward motion under a ceiling. */
  function JumpCalc(s: State, input: FrameInput, cfg: Config, now: real, velY: real): (r: State)
    ensures r.isJumping <==> JumpTriggered(s, input, cfg, now)
    ensures r.isJumping ==> !r.coyoteUsable && r.timeLeftGrounded == Sentinel
    ensures !r.isJumping ==> r.coyoteUsable == s.coyoteUsable && r.timeLeftGrounded == s.timeLeftGrounded
    ensures r.isJumping && !s.colUp ==> r.v == cfg.jumpHeight
    ensures !r.isJumping && !s.colUp ==> r.v == s.v
    ensures s.colUp ==> r.v <= 0.0
    ensures s.colUp && r.v != 0.0 ==> r.v == (if r.isJumping then cfg.jumpHeight else s.v)
    ensures s.colUp && r.isJumping && cfg.jumpHeight <= 0.0 ==> r.v == cfg.jumpHeight
    ensures s.colUp && !r.isJumping && s.v <= 0.0 ==> r.v == s.v
    ensures r.endedJumpEarly <==>
              (s.endedJumpEarly && !r.isJumping) || (!s.colDown && input.jumpUp && velY > 0.0)
    ensures r == s.(v := r.v, endedJumpEarly := r.endedJumpEarly, coyoteUsable := r.coyoteUsable,
                    timeLeftGrounded := r.timeLeftGrounded, isJumping := r.isJumping)
  {
    var s1 :=
      if JumpTriggered(s, input, cfg, now) then
        s.(v := cfg.jumpHeight, endedJumpEarly := false, coyoteUsable := false,
           timeLeftGrounded := Sentinel, isJumping := true)
      else
        s.(isJumping := false);
    var s2 :=
      if !s1.colDown && input.jumpUp && !s1.endedJumpEarly && velY > 0.0 then
        s1.(endedJumpEarly := true)
      else s1;
    if s2.colUp && s2.v > 0.0 then s2.(v := 0.0) else s2
  }
}

=== FILE: walking.dfy ===
/** The horizontal velocity model (WalkingCalc): accelerate toward the input
    direction, clamp, add the apex bonus; or decelerate toward rest; then
    let wall contact zero the speed. */
module Walking {
  import opened EngineMath
  import opened Kinematics

  /** The apex bonus Sign(x) * apexBonus * apexPoint, applied over dt, is
      no larger in magnitude than apexBonus * dt. The bonus is passed in
      as `bonus` so that the caller's own term is matched as it stands. */
  lemma ApexBonusBound(sx: real, ab: real, ap: real, dt: real, bonus: real)
    requires sx == 1.0 || sx == -1.0
    requires bonus == sx * ab * ap * dt
    ensures 0.0 <= ab && 0.0 <= ap <= 1.0 && 0.0 <= dt ==> Abs(bonus) <= ab * dt
  {
    if 0.0 <= ab && 0.0 <= ap <= 1.0 && 0.0 <= dt {
      var m := ab * dt;
      assert Abs(bonus) == m * ap;
      ScaleBetween(m, ap);
    }
  }

  /** WalkingCalc with input: accelerate, clamp, then add the apex bonus. */
  function Drive(h: real, x: real, apexPoint: real, cfg: Config, dt: real): real
  {
    var clamped := Clamp(h + x * cfg.acceleration * dt, -cfg.moveClamp, cfg.moveClamp);
    clamped + Sign(x) * cfg.apexBonus * apexPoint * dt
  }

  /** WalkingCalc without input: decelerate toward rest. */
  function Coast(h: real, cfg: Config, dt: real): real
  {
    MoveTowards(h, 0.0, cfg.deAcceleration * dt)
  }

  /** The input-driven part of WalkingCalc (everything before the wall
      check). */
  function Accelerate(h: real, x: real, apexPoint: real, cfg: Config, dt: real): real
  {
    if x != 0.0 then Drive(h, x, apexPoint, cfg, dt) else Coast(h, cfg, dt)
  }

  /** With input, the speed is accelerated and clamped to
      [-moveClamp, moveClamp], and only then shifted by the apex bonus, so
      it may end outside the clamp by up to apexBonus * dt. */
  lemma DriveBounds(h: real, x: real, apexPoint: real, cfg: Config, dt: real)
    ensures 0.0 <= cfg.moveClamp ==>
              Abs(Drive(h, x, apexPoint, cfg, dt) - Sign(x) * cfg.apexBonus * apexPoint * dt)
                <= cfg.moveClamp
    ensures 0.0 <= cfg.moveClamp && 0.0 <= cfg.apexBonus && 0.0 <= apexPoint <= 1.0 && 0.0 <= dt ==>
              Abs(Drive(h, x, apexPoint, cfg, dt)) <= cfg.moveClamp + cfg.apexBonus * dt
  {
    var bonus := Sign(x) * cfg.apexBonus * apexPoint * dt;
    ApexBonusBound(Sign(x), cfg.apexBonus, apexPoint, dt, bonus);
  }

  /** With input, the speed is h + x * acceleration * dt, cut to
      -moveClamp below or to moveClamp above (the lower bound compared
      first), plus the apex bonus Sign(x) * apexBonus * apexPoint * dt. */
  lemma DriveValue(h: real, x: real, apexPoint: real, cfg: Config, dt: real)
    ensures var a := h + x * cfg.acceleration * dt;
      var bonus := Sign(x) * cfg.apexBonus * apexPoint * dt;
      && (-cfg.moveClamp <= a <= cfg.moveClamp ==> Drive(h, x, apexPoint, cfg, dt) == a + bonus)
      && (a < -cfg.moveClamp ==> Drive(h, x, apexPoint, cfg, dt) == -cfg.moveClamp + bonus)
      && (-cfg.moveClamp <= a && a > cfg.moveClamp ==> Drive(h, x, apexPoint, cfg, dt) == cfg.moveClamp + bonus)
  {
    var a := h + x * cfg.acceleration * dt;
    var bonus := Sign(x) * cfg.apexBonus * apexPoint * dt;
    ClampedPlusBonus(a, cfg.moveClamp, bonus, Drive(h, x, apexPoint, cfg, dt));
  }

  /** The three cases of Clamp(a, -m, m) + bonus; the sum is passed in as
      `r` so that the caller's own term is matched as it stands. */
  lemma ClampedPlusBonus(a: real, m: real, bonus: real, r: real)
    requires r == Clamp(a, -m, m) + bonus
    ensures -m <= a <= m ==> r == a + bonus
    ensures a < -m ==> r == -m + bonus
    ensures -m <= a && a > m ==> r == m + bonus
  {
  }

  /** Without input the speed moves toward 0 by at most
      deAcceleration * dt, never crossing 0 and never growing, and reaches
      exactly 0 when it was that close. */
  lemma CoastBounds(h: real, cfg: Config, dt: real)
    requires 0.0 <= cfg.deAcceleration * dt
    ensures var r := Coast(h, cfg, dt);
      && Abs(r) <= Abs(h) && Abs(r - h) <= cfg.deAcceleration * dt
      && (h >= 0.0 ==> r >= 0.0) && (h <= 0.0 ==> r <= 0.0)
      && (r == 0.0 <==> Abs(h) <= cfg.deAcceleration * dt)
  {
  }

  /** The wall check of WalkingCalc: the speed is zeroed exactly when it
      points into a side that is in contact. */
  function BlockWalls(h: real, colLeft: bool, colRight: bool): (r: real)
    ensures !(r > 0.0 && colRight) && !(r < 0.0 && colLeft)
    ensures r == h || r == 0.0
    ensures r != h <==> (h > 0.0 && colRight) || (h < 0.0 && colLeft)
  {
    if (h > 0.0 && colRight) || (h < 0.0 && colLeft) then 0.0 else h
  }

  /** WalkingCalc. `apexPoint` is the value left by the PREVIOUS frame's
      ApexJumpCalc, which runs after this stage in Update. */
  function WalkingCalc(h: real, input: FrameInput, apexPoint: real, colLeft: bool, colRight: bool,
                       cfg: Config, dt: real): (r: real)
    ensures !(r > 0.0 && colRight) && !(r < 0.0 && colLeft)
    ensures input.x != 0.0 && 0.0 <= cfg.moveClamp && 0.0 <= cfg.apexBonus &&
            0.0 <= apexPoint <= 1.0 && 0.0 <= dt ==>
              Abs(r) <= cfg.moveClamp + cfg.apexBonus * dt
    ensures input.x == 0.0 && 0.0 <= cfg.deAcceleration * dt ==>
              Abs(r) <= Abs(h) && (h >= 0.0 ==> r >= 0.0) && (h <= 0.0 ==> r <= 0.0)
    ensures r == Accelerate(h, input.x, apexPoint, cfg, dt) || r == 0.0
    ensures r != Accelerate(h, input.x, apexPoint, cfg, dt) ==>
              (Accelerate(h, input.x, apexPoint, cfg, dt) > 0.0 && colRight) ||
              (Accelerate(h, input.x, apexPoint, cfg, dt) < 0.0 && colLeft)
  {
    if input.x != 0.0 then
      DriveBounds(h, input.x, apexPoint, cfg, dt);
      BlockWalls(Accelerate(h, input.x, apexPoint, cfg, dt), colLeft, colRight)
    else
      if 0.0 <= cfg.deAcceleration * dt then
        CoastBounds(h, cfg, dt);
        BlockWalls(Accelerate(h, input.x, apexPoint, cfg, dt), colLeft, colRight)
      else
        BlockWalls(Accelerate(h, input.x, apexPoint, cfg, dt), colLeft, colRight)
  }

  /** The speed after k frames without input and without wall contact,
      each frame a Coast with deceleration step d = deAcceleration * dt. */
  function IdleFrames(h: real, d: real, k: nat): real
    decreases k
  {
    if k == 0 then h else IdleFrames(MoveTowards(h, 0.0, d), d, k - 1)
  }

  /** One idle frame of WalkingCalc without wall contact is one step of
      IdleFrames, at any apex point. */
  lemma IdleFrameIsWalkingCalc(h: real, apexPoint: real, cfg: Config, dt: real)
    ensures WalkingCalc(h, FrameInput(false, false, 0.0), apexPoint, false, false, cfg, dt)
              == IdleFrames(h, cfg.deAcceleration * dt, 1)
  {
  }

  /** Without input the speed decays linearly: after k frames its magnitude
      is |h| - total, where total = k * deAcceleration * dt, or exactly 0
      once that would be negative, and it never changes sign. */
  lemma {:induction false} IdleDecay(h: real, d: real, k: nat, total: real)
    requires 0.0 <= d
    requires total == k as real * d
    decreases k
    ensures Abs(h) <= total ==> IdleFrames(h, d, k) == 0.0
    ensures Abs(h) > total ==> Abs(IdleFrames(h, d, k)) == Abs(h) - total
    ensures h >= 0.0 ==> IdleFrames(h, d, k) >= 0.0
    ensures h <= 0.0 ==> IdleFrames(h, d, k) <= 0.0
  {
    if k > 0 {
      var h1 := MoveTowards(h, 0.0, d);
      DecelerateStep(h, d, h1);
      var rest := total - d;
      PredTimes(k, d, total, rest);
      IdleDecay(h1, d, k - 1, rest);
    }
  }

  /** One frame of deceleration toward 0 by d. */
  lemma DecelerateStep(h: real, d: real, h1: real)
    requires 0.0 <= d
    requires h1 == MoveTowards(h, 0.0, d)
    ensures Abs(h) <= d ==> h1 == 0.0
    ensures Abs(h) > d ==> Abs(h1) == Abs(h) - d
    ensures (h >= 0.0 ==> h1 >= 0.0) && (h <= 0.0 ==> h1 <= 0.0)
  {
  }

  /** Peeling one frame off k frames' worth of a per-frame amount d. */
  lemma PredTimes(k: nat, d: real, total: real, rest: real)
    requires 0 < k && 0.0 <= d
    requires total == k as real * d && rest == total - d
    ensures rest == (k - 1) as real * d && 0.0 <= rest
  {
    assert k as real * d == (k - 1) as real * d + d;
  }

  /** A speed within the clamp is exactly 0 once k frames without input
      have spent at least moveClamp of deceleration. */
  lemma IdleStopsWithinClampTime(h: real, cfg: Config, d: real, k: nat)
    requires 0.0 <= d
    requires Abs(h) <= cfg.moveClamp
    requires cfg.moveClamp <= k as real * d
    ensures IdleFrames(h, d, k) == 0.0
  {
    IdleDecay(h, d, k, k as real * d);
  }

  /** The speed after k frames of full right input on the ground (apex
      point 0) without wall contact. */
  function HeldRightFrames(h: real, cfg: Config, dt: real, k: nat): real
    decreases k
  {
    if k == 0 then h
    else HeldRightFrames(Drive(h, 1.0, 0.0, cfg, dt), cfg, dt, k - 1)
  }

  /** One frame of WalkingCalc with full right input, apex point 0 and no
      wall contact is one step of HeldRightFrames. */
  lemma HeldRightFrameIsWalkingCalc(h: real, cfg: Config, dt: real)
    ensures WalkingCalc(h, FrameInput(false, false, 1.0), 0.0, false, false, cfg, dt)
              == HeldRightFrames(h, cfg, dt, 1)
  {
  }

  /** Holding right from rest-or-slower speeds up by acceleration * dt per
      frame until the clamp, then stays at the clamp; `total` is the
      k * acceleration * dt gained without the clamp. */
  lemma {:induction false} HeldRightSaturates(h: real, cfg: Config, dt: real, k: nat, total: real)
    requires 0.0 <= h <= cfg.moveClamp
    requires 0.0 <= cfg.acceleration * dt
    requires total == k as real * (cfg.acceleration * dt)
    decreases k
    ensures var r := HeldRightFrames(h, cfg, dt, k);
      && (h + total <= cfg.moveClamp ==> r == h + total)
      && (h + total >= cfg.moveClamp ==> r == cfg.moveClamp)
  {
    var a := cfg.acceleration * dt;
    if k > 0 {
      var h1 := Drive(h, 1.0, 0.0, cfg, dt);
      assert h1 == Clamp(h + a, -cfg.moveClamp, cfg.moveClamp);
      var rest := total - a;
      PredTimes(k, a, total, rest);
      HeldRightSaturates(h1, cfg, dt, k - 1, rest);
    }
  }

  /** With the default tuning (acceleration 90, clamp 13), one second of
      right input at 60 frames per second from rest ends at exactly 13. */
  lemma DefaultRunReachesClamp(size: Vec2)
    ensures HeldRightFrames(0.0, DefaultConfig(size), 1.0 / 60.0, 60) == 13.0
  {
    HeldRightSaturates(0.0, DefaultConfig(size), 1.0 / 60.0, 60, 90.0);
  }

  /** The apex bonus is added after the clamp, so the speed can leave
      [-moveClamp, moveClamp]: with the default tuning, at the clamp, at the
      apex and with dt = 0.1, holding right ends at 13.2. */
  lemma ApexBonusExceedsClamp(size: Vec2)
    ensures var cfg := DefaultConfig(size);
      WalkingCalc(13.0, FrameInput(false, false, 1.0), 1.0, false, false, cfg, 0.1) == 13.2 > cfg.moveClamp
  {
  }
}
